=== FILE: README.md ===
# Row-striped parallel matrix multiplication, modelled in Dafny

The two programs in `MatrixMult/` multiply two dense square matrices of order
`size`. Each matrix is held as one flat, row-major buffer of `size*size`
elements.

- `MOMP.c` is the shared-memory program. It fills A and B, leaves C unwritten,
  and runs a triple loop over every row of C, with the row loop split among
  OpenMP threads.
- `MParallel.c` is the distributed program. The `numtasks` MPI processes
  ("participants", rank 0 being the root) each own a stripe of rows
  `[from, to)`:
  - every participant gets `size / numtasks` rows;
  - the last participant also takes the whole remainder `size % numtasks`.

  The root broadcasts B and scatters A's stripes. Each participant computes
  its stripe of C with the same kernel. The root then gathers the stripes of
  C. Scatter and gather follow a transfer plan, `displs`/`scounts`, that gives
  each participant's block offset and element count.

The model has these modules:

- `Arith` (`arith.dfy`): one monotonicity fact about multiplication.
- `Matrix` (`matrix.dfy`): the row-major layout.
  - `Entry` gives element (i, j).
  - `Dot` and `ProductEntry` are the reference definition of a product cell.
    `Dot` accumulates left to right, the order the kernel uses.
  - The module also proves facts about products: a row of the product reads
    only the same row of A, and there is a closed form for the operands the
    programs build.
- `Stripes` (`stripes.dfy`): the stripe planner and the transfer plan.
  - Stripe bounds are pure functions.
  - `BuildPlan` is the loop that fills `displs` and `scounts`.
  - Lemmas prove that the stripes are bounded, contiguous, disjoint and cover
    every row, and that the plan agrees with them.
- `Transport` (`transport.dfy`): the data effect of `MPI_Bcast`,
  `MPI_Scatterv` and `MPI_Gatherv`.
  - All three are pure functions over one full-size buffer per participant.
    `Scatterv` and `Gatherv` are built from slice copies (`Place`); `Bcast`
    copies the root's whole buffer to every participant.
  - The root sends and receives in place.
  - Scatter followed by gather gives back the root's buffer.
- `Kernel` (`kernel.dfy`): the triple loop on arrays.
  - `MultiplyRows` runs over a stripe. `MultiplyRow` is its middle loop and
    `MultiplyCell` its inner loop.
  - `Multiply` is the shared-memory program's loop over every row.
- `Alloc` (`alloc.dfy`): `allocate_real_matrix` and its fill modes.
- `Assembly` (`assembly.dfy`): the end-to-end theorem. If every participant
  computes its stripe from what the collectives delivered, the gathered C is
  A*B in every row.
- `Programs` (`programs.dfy`): the two `main` computations, from allocation to
  the final C, proved to give rows of `(i+1)*size*(size+1)/2`.
  `ParallelMain` does not call `Stripes.BuildPlan`: its scatter and gather read
  the offsets and counts from `Stripes.Displ` and `Stripes.Count`. The arrays
  the program hands to MPI reach the data flow only through `BuildPlan`'s
  contract, which proves every entry equal to those functions.

Matrix elements are `int`. Fill mode -1 writes integer values, so a product
over them is exact in `double` as long as no value grows past 2^53.

## Model

| member | source | states |
|---|---|---|
| `Stripes.StripeHeight` | MatrixMult/MParallel.c:125 | the base height h is the floor of `size / numtasks`: `h*numtasks <= size < (h+1)*numtasks` |
| `Stripes.ExtraStripeHeight` | MatrixMult/MParallel.c:126 | the remainder e is below `numtasks`, and `h*numtasks + e == size` |
| `Stripes.From` | MatrixMult/MParallel.c:129 | a stripe's first row is at most `size` |
| `Stripes.To` | MatrixMult/MParallel.c:130-132 | a stripe ends between its first row and `size`; the last one ends at `size`; every other one ends where the next participant's begins |
| `Stripes.StripeBounds` | MatrixMult/MParallel.c:125-132 | every stripe satisfies `0 <= from <= to <= size`; every stripe but the last has exactly `size / numtasks` rows; the last one ends at `size` |
| `Stripes.StripesContiguous` | MatrixMult/MParallel.c:125-132 | participant r's `to` is participant r+1's `from` |
| `Stripes.StripesOrdered` | MatrixMult/MParallel.c:125-132 | a stripe ends no later than any stripe of a higher rank begins |
| `Stripes.StripesDisjoint` | MatrixMult/MParallel.c:125-132 | no row lies in the stripes of two different participants |
| `Stripes.CoveredUpTo` | MatrixMult/MParallel.c:125-132 | a row below participant r's `to` lies in the stripe of some participant 0..r |
| `Stripes.StripesCover` | MatrixMult/MParallel.c:125-132 | every row in `[0, size)` lies in the stripe of exactly one participant |
| `Stripes.MoreTasksThanRows` | MatrixMult/MParallel.c:125-132 | when `numtasks > size`, every participant but the last has an empty stripe, and the last one owns `[0, size)` |
| `Stripes.StripeSize` | MatrixMult/MParallel.c:140 | `numtasks` base blocks fit in the `size*size` buffer |
| `Stripes.LastStripeSize` | MatrixMult/MParallel.c:141 | `numtasks-1` base blocks followed by the last block fill the `size*size` buffer exactly |
| `Stripes.Displ` | MatrixMult/MParallel.c:161-168 | `displs[taskid]` is the offset of the participant's first row, `from*size` |
| `Stripes.Count` | MatrixMult/MParallel.c:161-168 | `scounts[taskid]` is the number of elements in the participant's rows, `(to-from)*size` |
| `Stripes.PlanMatchesStripes` | MatrixMult/MParallel.c:140-168 | `displs[r] == from_r*size`; `scounts[r] == (to_r-from_r)*size`; `displs[r]+scounts[r] == displs[r+1]` |
| `Stripes.BlockInBuffer` | MatrixMult/MParallel.c:140-168 | every block of the plan ends at `to_r*size`, which is within the `size*size` buffer |
| `Stripes.CountsBeforeIsOffset` | MatrixMult/MParallel.c:157-168 | the counts of participants 0..r-1 add up to `displs[r]` |
| `Stripes.CountsSumToWhole` | MatrixMult/MParallel.c:157-168 | all the `scounts` add up to `size*size` |
| `Stripes.BuildPlan` | MatrixMult/MParallel.c:157-168 | the loop and the last-participant step fill `displs` and `scounts` with the plan's offsets and counts; when `size*size` fits in an `int`, so does every offset and every offset plus count |
| `Transport.Place` | MatrixMult/MParallel.c:174-178 | copying a block at an offset changes exactly the cells it covers, to the block's elements |
| `Transport.Bcast` | MatrixMult/MParallel.c:154 | every participant ends up with the root's B |
| `Transport.Received` | MatrixMult/MParallel.c:174-178 | after the scatter, a participant holds the root's elements across its own stripe and its own elements elsewhere; the root's buffer is unchanged |
| `Transport.Scatterv` | MatrixMult/MParallel.c:174-178 | the scatter leaves every buffer at `size*size` elements and leaves the root's buffer as it was |
| `Transport.ScatterAt` | MatrixMult/MParallel.c:174-178 | element by element, the scattered buffer of participant q is the root's inside q's stripe and q's own outside it |
| `Transport.GatherUpTo` | MatrixMult/MParallel.c:201-205 | once participants 1..m-1 have sent, the root's buffer still has `size*size` elements, and every element past the stripe of participant m-1 is what the root held |
| `Transport.Gatherv` | MatrixMult/MParallel.c:201-205 | after the gather, every element of participant q's block in the root's C is the one q held, for every q |
| `Transport.GatherUpToAt` | MatrixMult/MParallel.c:201-205 | once participants 0..m-1 have sent, each cell of their stripes in the root's C is the sender's cell |
| `Transport.GatherAt` | MatrixMult/MParallel.c:201-205 | after the gather, each cell of participant q's stripe in the root's C is the cell q held |
| `Transport.ScatterGatherRoundTrip` | MatrixMult/MParallel.c:174-205 | a scatter followed by a gather with no change in between gives back the root's buffer exactly |
| `Matrix.ProductEntry` | MatrixMult/MParallel.c:194-196 | the cell the kernel accumulates left to right (`Dot`, with `C[i*size+j]` reset to 0 first) over all `size` terms; a zero row of A or a zero column of B gives 0 |
| `Matrix.DotOfZeroTerms` | MatrixMult/MParallel.c:194-196 | a partial sum whose row of A, or column of B, is zero on the terms summed so far is 0 |
| `Kernel.MultiplyCell` | MatrixMult/MParallel.c:194-196 | the cell `C[i*size+j]` becomes the dot product of row i of A and column j of B; no other cell of C changes |
| `Kernel.MultiplyRow` | MatrixMult/MParallel.c:193-197 | every cell of row i of C becomes the matching cell of A*B; no other row changes |
| `Kernel.MultiplyRows` | MatrixMult/MParallel.c:189-198 | every cell of rows `[from, to)` of C becomes the matching cell of A*B; C is unchanged outside those rows; A and B are unchanged |
| `Kernel.Multiply` | MatrixMult/MOMP.c:129-140 | every cell of C becomes the matching cell of A*B, whatever C held before; A and B are unchanged |
| `Alloc.InitialValue` | MatrixMult/MParallel.c:63-73 | the value a filling mode writes (mode -2 writes nothing): mode -1 writes a value in `1..size`; mode 0 writes 0; mode 0 and the random fill write 0 into cell (0, 0), since the random fill scales by `i + j` |
| `Alloc.FillMatrix` | MatrixMult/MParallel.c:63-73 | mode 0 sets every cell to 0; mode -1 sets cell (i, j) to i+1; mode -2 writes nothing; any other mode writes `rand()*(i+j)`, taking the rand() results in row-major order |
| `Alloc.AllocateRealMatrix` | MatrixMult/MOMP.c:48-76 | returns a new `size*size` buffer filled as modes 0, -1 and other values prescribe; a mode -2 buffer is left as allocated (the same function is at MParallel.c:49-76) |
| `Matrix.DotReadsOnlyRow` | MatrixMult/MParallel.c:195-196 | the partial sums for row i read only row i of A |
| `Matrix.ProductEntryReadsOnlyRow` | MatrixMult/MParallel.c:192-197 | row i of A*B is the same for any two left operands that agree on row i, so a participant that holds only its own rows of A computes the right rows |
| `Matrix.DotOfRowNumbered` | MatrixMult/MOMP.c:132-139 | when both operands have i+1 in every cell of row i, the first k terms sum to `(i+1)*k*(k+1)/2` |
| `Matrix.ProductOfRowNumbered` | MatrixMult/MOMP.c:121-139 | with both operands filled in mode -1, every cell of row i of the product is `(i+1)*size*(size+1)/2` |
| `Matrix.ProductOfRowNumberedOrderFour` | MatrixMult/MParallel.c:144-145 | with `size = 4` the rows of the product are 10, 20, 30 and 40 |
| `Assembly.ScatteredRow` | MatrixMult/MParallel.c:174-178 | after the scatter, participant q's row i matches the root's A on every row of q's stripe |
| `Assembly.AssembledEntry` | MatrixMult/MParallel.c:174-205 | each cell of the gathered C is the matching cell of the root's A times B |
| `Assembly.ParallelProductAssembled` | MatrixMult/MParallel.c:154-205 | if each participant computed its stripe from its scattered A and broadcast B, every row of the gathered C is the matching row of A*B, for any `size` and `numtasks` |
| `Assembly.ParallelProductOfRowNumbered` | MatrixMult/MParallel.c:143-205 | with A and B filled in mode -1, each cell of row i of the gathered C is `(i+1)*size*(size+1)/2` |
| `Programs.SharedMemoryMain` | MatrixMult/MOMP.c:121-140 | the shared-memory program's C has `(i+1)*size*(size+1)/2` in every cell of row i |
| `Programs.AllocateAll` | MatrixMult/MParallel.c:143-151 | every participant holds `size*size` buffers for A, B and C; the root's A and B have i+1 in every cell of row i |
| `Programs.ComputeStripes` | MatrixMult/MParallel.c:187-198 | every participant's C holds the rows of its stripe of the product of the A and B it received, and is unchanged outside its stripe |
| `Programs.ParallelMain` | MatrixMult/MParallel.c:143-205 | the distributed program's gathered C has `(i+1)*size*(size+1)/2` in every cell of row i, for every participant count |

`Kernel.Multiply` determines every cell of C from A and B alone. So the
unwritten contents of a mode -2 buffer never reach the result.

The shared-memory program's kernel (`MOMP.c:129-140`) is the distributed
kernel run over `[0, size)`, and the model uses it that way.
`allocate_real_matrix` is identical in both files.

The comment above `allocate_real_matrix` (`MParallel.c:45`) says mode -1 gives
random values. The code writes `i + 1`, and the model follows the code.
The same comment (`MParallel.c:47`, `MOMP.c:46`) says any other mode fills
the matrix with the value of the `random` argument. The code writes
`rand()*(i+j)`, and the model follows the code here too.

## Left out

- MPI as communication: `MPI_Init`, `MPI_Finalize`, the rank and size queries,
  blocking, barriers and deadlock. The rank and the participant count are
  parameters. Only where the collectives put the data is modelled.
- Simultaneity: `Programs.ParallelMain` runs the participants one after
  another. The model does not capture that they run at the same time.
- OpenMP threads and static scheduling. Rows are written disjointly, so the
  rows are modelled as running one after another in a sequential loop.
- IEEE-754 `double` arithmetic and rounding. Elements are unbounded integers.
- Alloc.FillMatrix: fill modes other than 0, -1 and -2 call the C library's
  `rand()`. The model takes its successive results as the parameter `rands`.
  The `int` overflow of `rand()*(i+j)` is not modelled.
- `malloc` failure and the `exit(1)` after it: allocation always succeeds.
  `free_real_matrix` and the `free` of the plan arrays are not modelled.
- Stripes.BuildPlan: it is the only member that states the 32-bit bound
  `size*size <= 2^31-1`, and under that bound it proves that every plan value
  fits in an `int`. Everywhere else integers are unbounded, so overflow of
  `size*size` and of offsets is not modelled.
- Argument parsing, where `size` may be left uninitialised.
- Timing (`my_ftime`), the printed summaries, `display`, and the result file.
  `dump` writes only `size` values, not `size*size`; that is an I/O detail
  the model does not capture.
- A strict mode that rejects a `size` not divisible by `numtasks`.
  `MParallel.c` has none: it always lets the last participant absorb the
  remainder (lines 125-132). `MOMP.c` does not divide rows among processes.

=== FILE: alloc.dfy ===
/** Allocation and initial fill of a size-by-size row-major buffer. The
    `random` argument selects the fill: 0 writes zeros, -1 writes i + 1 into
    every cell of row i, -2 writes nothing, and any other value writes
    rand() * (i + j), where the successive results of the C library's rand()
    are supplied as the row-major buffer `rands`. */
module Alloc {
  import opened Matrix

  /** The value the fill writes into cell (i, j) in every mode but -2 (mode
      -2 writes nothing). Mode -1 numbers the rows 1..size; mode 0 and the
      random fill write 0 into cell (0, 0), since the random fill scales by
      i + j. */
  function InitialValue(size: nat, random: int, rands: seq<int>, i: nat, j: nat): (v: int)
    requires |rands| == size * size && i < size && j < size
    ensures random == -1 ==> 1 <= v <= size
    ensures random != -1 && random != -2 && i == 0 && j == 0 ==> v == 0
    ensures random == 0 ==> v == 0
  {
    if random == 0 then 0
    else if random == -1 then i + 1
    else Entry(rands, size, i, j) * (i + j)
  }

  /** Fills the buffer row by row according to `random`. */
  method FillMatrix(m: array<int>, size: nat, random: int, rands: seq<int>)
    requires m.Length == size * size && |rands| == size * size
    modifies m
    ensures random == 0 ==> forall i, j :: 0 <= i < size && 0 <= j < size ==> Entry(m[..], size, i, j) == 0
    ensures random == -1 ==> RowNumbered(m[..], size)
    ensures random == -2 ==> m[..] == old(m[..])
    ensures random != 0 && random != -1 && random != -2 ==>
              forall i, j :: 0 <= i < size && 0 <= j < size ==>
                Entry(m[..], size, i, j) == Entry(rands, size, i, j) * (i + j)
  {
    if random == -2 {
      return;
    }
    var i := 0;
    while i < size
      invariant 0 <= i <= size
      invariant forall r, c :: 0 <= r < i && 0 <= c < size ==>
                  Entry(m[..], size, r, c) == InitialValue(size, random, rands, r, c)
    {
      var j := 0;
      while j < size
        invariant 0 <= j <= size
        invariant forall r, c :: 0 <= r < size && 0 <= c < size && (r < i || (r == i && c < j)) ==>
                    Entry(m[..], size, r, c) == InitialValue(size, random, rands, r, c)
      {
        ghost var before := m[..];
        OffsetInRange(size, i, j);
        var v := InitialValue(size, random, rands, i, j);
        m[i * size + j] := v;
        forall r, c | 0 <= r < size && 0 <= c < size
          ensures Entry(m[..], size, r, c) == if r == i && c == j then v else Entry(before, size, r, c)
        {
          EntryAfterUpdate(before, size, i, j, v, r, c);
        }
        j := j + 1;
      }
      i := i + 1;
    }
  }

  /** Allocates a size-by-size buffer and fills it according to `random`;
      in mode -2 the cells keep whatever the allocation left in them. The
      C program aborts when the allocation fails; here it always succeeds. */
  method AllocateRealMatrix(size: nat, random: int, rands: seq<int>) returns (m: array<int>)
    requires |rands| == size * size
    ensures fresh(m) && m.Length == size * size
    ensures random == 0 ==> forall i, j :: 0 <= i < size && 0 <= j < size ==> Entry(m[..], size, i, j) == 0
    ensures random == -1 ==> RowNumbered(m[..], size)
    ensures random != 0 && random != -1 && random != -2 ==>
              forall i, j :: 0 <= i < size && 0 <= j < size ==>
                Entry(m[..], size, i, j) == Entry(rands, size, i, j) * (i + j)
  {
    m := new int[size * size];
    FillMatrix(m, size, random, rands);
  }
}

=== FILE: arith.dfy ===
/** Facts about multiplication of naturals that the offset arithmetic of
    the row-major layout rests on. */
module Arith {

  /** Multiplying by the same natural keeps the order. */
  lemma MulMonotone(x: nat, y: nat, m: nat)
    requires x <= y
    ensures x * m <= y * m
  {
  }
}

=== FILE: assembly.dfy ===
/** The data flow of the distributed program, end to end: the root's B is
    broadcast, its A is scattered along the transfer plan, every participant
    runs the kernel over its own stripe, and the stripes of C are gathered
    back into the root's buffer. */
module Assembly {
  import opened Matrix
  import opened Stripes
  import opened Transport

  /** Every participant q has computed the rows of its stripe from the copy
      of A the scatter gave it and the copy of B the broadcast gave it: what
      the kernel promises on each participant. */
  ghost predicate StripesComputed(cBufs: seq<seq<int>>, aBufs: seq<seq<int>>, bBufs: seq<seq<int>>,
                                  size: nat, numtasks: nat)
    requires numtasks >= 1
    requires WellSized(aBufs, size, numtasks) && WellSized(bBufs, size, numtasks)
    requires WellSized(cBufs, size, numtasks)
  {
    forall q :: 0 <= q < numtasks ==>
      (StripeBounds(size, numtasks, q);
       RowsComputed(cBufs[q], Scatterv(aBufs, size, numtasks)[q], Bcast(bBufs, numtasks)[q],
                    size, From(size, numtasks, q), To(size, numtasks, q)))
  }

  /** After the scatter, participant q holds the root's rows of its stripe. */
  lemma ScatteredRow(aBufs: seq<seq<int>>, size: nat, numtasks: nat, q: nat, i: nat)
    requires numtasks >= 1 && WellSized(aBufs, size, numtasks)
    requires q < numtasks && InStripe(size, numtasks, q, i)
    ensures i < size
    ensures SameRow(Scatterv(aBufs, size, numtasks)[q], aBufs[0], size, i)
  {
    StripeBounds(size, numtasks, q);
    var scattered := Scatterv(aBufs, size, numtasks);
    forall k | 0 <= k < size
      ensures Entry(scattered[q], size, i, k) == Entry(aBufs[0], size, i, k)
    {
      ScatteredEntry(aBufs, size, numtasks, q, i, k);
    }
  }

  /** One cell of a row of participant q's stripe: after the scatter it is
      the root's cell. */
  lemma ScatteredEntry(aBufs: seq<seq<int>>, size: nat, numtasks: nat, q: nat, i: nat, k: nat)
    requires numtasks >= 1 && WellSized(aBufs, size, numtasks)
    requires q < numtasks && InStripe(size, numtasks, q, i) && i < size && k < size
    ensures Entry(Scatterv(aBufs, size, numtasks)[q], size, i, k) == Entry(aBufs[0], size, i, k)
  {
    OffsetInRows(size, From(size, numtasks, q), To(size, numtasks, q), i, k);
    OffsetInRange(size, i, k);
    ScatterAt(aBufs, size, numtasks, q, i * size + k);
  }

  /** The gathered C is the product of the root's A and B in every row,
      however the rows were split among the participants. */
  lemma ParallelProductAssembled(aBufs: seq<seq<int>>, bBufs: seq<seq<int>>, cBufs: seq<seq<int>>,
                                 size: nat, numtasks: nat)
    requires numtasks >= 1
    requires WellSized(aBufs, size, numtasks) && WellSized(bBufs, size, numtasks)
    requires WellSized(cBufs, size, numtasks)
    requires StripesComputed(cBufs, aBufs, bBufs, size, numtasks)
    ensures RowsComputed(Gatherv(cBufs, size, numtasks), aBufs[0], bBufs[0], size, 0, size)
  {
    forall i, j | 0 <= i < size && 0 <= j < size
      ensures Entry(Gatherv(cBufs, size, numtasks), size, i, j) == ProductEntry(aBufs[0], bBufs[0], size, i, j)
    {
      AssembledEntry(aBufs, bBufs, cBufs, size, numtasks, i, j);
    }
  }

  /** One cell of the gathered C: it comes from the participant whose stripe
      holds its row, which computed it from the same row of A. */
  lemma AssembledEntry(aBufs: seq<seq<int>>, bBufs: seq<seq<int>>, cBufs: seq<seq<int>>,
                       size: nat, numtasks: nat, i: nat, j: nat)
    requires numtasks >= 1
    requires WellSized(aBufs, size, numtasks) && WellSized(bBufs, size, numtasks)
    requires WellSized(cBufs, size, numtasks)
    requires StripesComputed(cBufs, aBufs, bBufs, size, numtasks)
    requires i < size && j < size
    ensures Entry(Gatherv(cBufs, size, numtasks), size, i, j) == ProductEntry(aBufs[0], bBufs[0], size, i, j)
  {
    var scattered := Scatterv(aBufs, size, numtasks);
    StripesCover(size, numtasks, i);
    var q: nat :| q < numtasks && InStripe(size, numtasks, q, i);
    StripeBounds(size, numtasks, q);
    OffsetInRows(size, From(size, numtasks, q), To(size, numtasks, q), i, j);
    GatherAt(cBufs, size, numtasks, q, i * size + j);
    assert Entry(cBufs[q], size, i, j) == ProductEntry(scattered[q], bBufs[0], size, i, j);
    ScatteredRow(aBufs, size, numtasks, q, i);
    ProductEntryReadsOnlyRow(scattered[q], aBufs[0], bBufs[0], size, i, j);
  }

  /** With the operands the program builds (fill mode -1 for both A and B),
      every cell of row i of the gathered C is (i+1) * size * (size+1) / 2. */
  lemma ParallelProductOfRowNumbered(aBufs: seq<seq<int>>, bBufs: seq<seq<int>>, cBufs: seq<seq<int>>,
                                     size: nat, numtasks: nat)
    requires numtasks >= 1
    requires WellSized(aBufs, size, numtasks) && WellSized(bBufs, size, numtasks)
    requires WellSized(cBufs, size, numtasks)
    requires RowNumbered(aBufs[0], size) && RowNumbered(bBufs[0], size)
    requires StripesComputed(cBufs, aBufs, bBufs, size, numtasks)
    ensures forall i, j :: 0 <= i < size && 0 <= j < size ==>
              Entry(Gatherv(cBufs, size, numtasks), size, i, j) == (i + 1) * size * (size + 1) / 2
  {
    ParallelProductAssembled(aBufs, bBufs, cBufs, size, numtasks);
    forall i, j | 0 <= i < size && 0 <= j < size
      ensures Entry(Gatherv(cBufs, size, numtasks), size, i, j) == (i + 1) * size * (size + 1) / 2
    {
      ProductOfRowNumbered(aBufs[0], bBufs[0], size, i, j);
    }
  }
}

=== FILE: kernel.dfy ===
/** The local compute kernel: the triple loop that each participant runs
    over its own rows [from, to), and the whole-matrix kernel of the
    shared-memory program, which is the same loop over [0, size). Rows are
    independent, so the worker threads that split the row loop are modelled
    by running the rows in order. */
module Kernel {
  import opened Matrix

  /** Computes rows [from, to) of A*B into C: each cell is reset to 0 and
      then accumulates A[i*size+k] * B[k*size+j] for k = 0, 1, ..., size-1.
      No cell of C outside those rows is written, and A and B are only read. */
  method MultiplyRows(A: array<int>, B: array<int>, C: array<int>, size: nat, from: nat, to: nat)
    requires A.Length == size * size && B.Length == size * size && C.Length == size * size
    requires from <= to <= size
    requires C != A && C != B
    modifies C
    ensures RowsComputed(C[..], A[..], B[..], size, from, to)
    ensures forall r, c :: 0 <= r < size && 0 <= c < size && !(from <= r < to) ==>
              Entry(C[..], size, r, c) == Entry(old(C[..]), size, r, c)
    ensures A[..] == old(A[..]) && B[..] == old(B[..])
  {
    var i := from;
    while i < to
      invariant from <= i <= to
      invariant RowsComputed(C[..], A[..], B[..], size, from, i)
      invariant forall r, c :: 0 <= r < size && 0 <= c < size && !(from <= r < i) ==>
                  Entry(C[..], size, r, c) == Entry(old(C[..]), size, r, c)
    {
      MultiplyRow(A, B, C, size, i);
      i := i + 1;
    }
  }

  /** The middle loop: computes row i of A*B into C and writes no other row. */
  method MultiplyRow(A: array<int>, B: array<int>, C: array<int>, size: nat, i: nat)
    requires A.Length == size * size && B.Length == size * size && C.Length == size * size
    requires i < size
    requires C != A && C != B
    modifies C
    ensures forall c :: 0 <= c < size ==> Entry(C[..], size, i, c) == ProductEntry(A[..], B[..], size, i, c)
    ensures forall r, c :: 0 <= r < size && 0 <= c < size && r != i ==>
              Entry(C[..], size, r, c) == Entry(old(C[..]), size, r, c)
  {
    var j := 0;
    while j < size
      invariant 0 <= j <= size
      invariant forall c :: 0 <= c < j ==> Entry(C[..], size, i, c) == ProductEntry(A[..], B[..], size, i, c)
      invariant forall r, c :: 0 <= r < size && 0 <= c < size && (r != i || j <= c) ==>
                  Entry(C[..], size, r, c) == Entry(old(C[..]), size, r, c)
    {
      ghost var before := C[..];
      MultiplyCell(A, B, C, size, i, j);
      forall r, c | 0 <= r < size && 0 <= c < size
        ensures Entry(C[..], size, r, c)
                  == if r == i && c == j then ProductEntry(A[..], B[..], size, i, j) else Entry(before, size, r, c)
      {
        EntryAfterUpdate(before, size, i, j, ProductEntry(A[..], B[..], size, i, j), r, c);
      }
      j := j + 1;
    }
  }

  /** The inner loop: C[i*size+j] is reset to 0, then accumulates the dot
      product of row i of A with column j of B; no other cell changes. */
  method MultiplyCell(A: array<int>, B: array<int>, C: array<int>, size: nat, i: nat, j: nat)
    requires A.Length == size * size && B.Length == size * size && C.Length == size * size
    requires i < size && j < size
    requires C != A && C != B
    modifies C
    ensures (OffsetInRange(size, i, j);
             C[..] == old(C[..])[i * size + j := ProductEntry(A[..], B[..], size, i, j)])
  {
    OffsetInRange(size, i, j);
    var cell := i * size + j;
    ghost var a, b := A[..], B[..];
    C[cell] := 0;
    var k := 0;
    while k < size
      invariant 0 <= k <= size
      invariant C[cell] == Dot(a, b, size, i, j, k)
      invariant forall idx :: 0 <= idx < C.Length && idx != cell ==> C[idx] == old(C[idx])
    {
      OffsetInRange(size, i, k);
      OffsetInRange(size, k, j);
      assert A[i * size + k] * B[k * size + j] == Entry(a, size, i, k) * Entry(b, size, k, j);
      C[cell] := C[cell] + A[i * size + k] * B[k * size + j];
      k := k + 1;
    }
  }

  /** The shared-memory program's kernel: every row of C becomes the
      matching row of A*B, whatever C held before. */
  method Multiply(A: array<int>, B: array<int>, C: array<int>, size: nat)
    requires A.Length == size * size && B.Length == size * size && C.Length == size * size
    requires C != A && C != B
    modifies C
    ensures forall i, j :: 0 <= i < size && 0 <= j < size ==>
              Entry(C[..], size, i, j) == ProductEntry(A[..], B[..], size, i, j)
    ensures A[..] == old(A[..]) && B[..] == old(B[..])
  {
    MultiplyRows(A, B, C, size, 0, size);
  }
}

=== FILE: matrix.dfy ===
/** A square matrix of order n held as one flat, row-major buffer of n*n
    elements: element (i, j) lives at offset i*n + j. This module also holds
    the reference definition of the product entry that every kernel is
    proved against. */
module Matrix {
  import opened Arith

  /** Element (i, j) of the n-by-n row-major buffer s. */
  function Entry(s: seq<int>, n: nat, i: nat, j: nat): int
    requires |s| == n * n && i < n && j < n
  {
    OffsetInRange(n, i, j);
    s[i * n + j]
  }

  /** The offset of any element lies inside the buffer. */
  lemma OffsetInRange(n: nat, i: nat, j: nat)
    requires i < n && j < n
    ensures i * n + j < n * n
  {
    MulMonotone(i + 1, n, n);
  }

  /** Two elements share an offset only when they are the same element. */
  lemma OffsetInjective(n: nat, i: nat, j: nat, i2: nat, j2: nat)
    requires j < n && j2 < n
    requires i * n + j == i2 * n + j2
    ensures i == i2 && j == j2
  {
    if i < i2 {
      MulMonotone(i + 1, i2, n);
      assert false;
    } else if i2 < i {
      MulMonotone(i2 + 1, i, n);
      assert false;
    }
  }

  /** The elements of rows [from, to) occupy exactly the offsets [from*n, to*n). */
  lemma OffsetInRows(n: nat, from: nat, to: nat, i: nat, j: nat)
    requires from <= i < to && j < n
    ensures from * n <= i * n + j < to * n
  {
    MulMonotone(from, i, n);
    MulMonotone(i + 1, to, n);
  }

  /** Every offset of the buffer is the offset of exactly one element: the
      one in row offset / n, column offset % n. */
  lemma ElementAt(n: nat, offset: nat)
    requires offset < n * n
    ensures offset / n < n && offset % n < n
    ensures offset == (offset / n) * n + offset % n
  {
    if offset / n >= n {
      MulMonotone(n, offset / n, n);
      assert false;
    }
  }

  /** Writing one element leaves every other element as it was. */
  lemma EntryAfterUpdate(s: seq<int>, n: nat, i: nat, j: nat, v: int, r: nat, c: nat)
    requires |s| == n * n && i < n && j < n && r < n && c < n
    ensures (OffsetInRange(n, i, j);
             Entry(s[i * n + j := v], n, r, c) == if r == i && c == j then v else Entry(s, n, r, c))
  {
    OffsetInRange(n, i, j);
    OffsetInRange(n, r, c);
    if r * n + c == i * n + j {
      OffsetInjective(n, r, c, i, j);
    }
  }

  /** The partial dot product of row i of a with column j of b over the
      first k terms, accumulated left to right as the kernels do. */
  function Dot(a: seq<int>, b: seq<int>, n: nat, i: nat, j: nat, k: nat): int
    requires |a| == n * n && |b| == n * n && i < n && j < n && k <= n
    decreases k
  {
    if k == 0 then 0
    else Dot(a, b, n, i, j, k - 1) + Entry(a, n, i, k - 1) * Entry(b, n, k - 1, j)
  }

  /** Entry (i, j) of the product a*b: the full dot product of row i of a
      with column j of b. A zero row of a or a zero column of b gives a
      zero entry. */
  function ProductEntry(a: seq<int>, b: seq<int>, n: nat, i: nat, j: nat): (r: int)
    requires |a| == n * n && |b| == n * n && i < n && j < n
    ensures (forall t :: 0 <= t < n ==> Entry(a, n, i, t) == 0) ==> r == 0
    ensures (forall t :: 0 <= t < n ==> Entry(b, n, t, j) == 0) ==> r == 0
  {
    DotOfZeroTerms(a, b, n, i, j, n);
    Dot(a, b, n, i, j, n)
  }

  /** A partial dot product over a row of a, or a column of b, whose first k
      elements are zero is zero. */
  lemma {:induction false} DotOfZeroTerms(a: seq<int>, b: seq<int>, n: nat, i: nat, j: nat, k: nat)
    requires |a| == n * n && |b| == n * n && i < n && j < n && k <= n
    ensures (forall t :: 0 <= t < k ==> Entry(a, n, i, t) == 0) ==> Dot(a, b, n, i, j, k) == 0
    ensures (forall t :: 0 <= t < k ==> Entry(b, n, t, j) == 0) ==> Dot(a, b, n, i, j, k) == 0
    decreases k
  {
    if k > 0 {
      DotOfZeroTerms(a, b, n, i, j, k - 1);
    }
  }

  /** Rows [from, to) of c hold the rows of the product a*b. */
  ghost predicate RowsComputed(c: seq<int>, a: seq<int>, b: seq<int>, n: nat, from: nat, to: nat)
    requires |a| == n * n && |b| == n * n && |c| == n * n && to <= n
  {
    forall i, j :: from <= i < to && 0 <= j < n ==> Entry(c, n, i, j) == ProductEntry(a, b, n, i, j)
  }

  /** Row i of the two buffers agrees in every column. */
  ghost predicate SameRow(a: seq<int>, a2: seq<int>, n: nat, i: nat)
    requires |a| == n * n && |a2| == n * n && i < n
  {
    forall k :: 0 <= k < n ==> Entry(a, n, i, k) == Entry(a2, n, i, k)
  }

  /** A partial dot product reads row i of a and nothing else of a. */
  lemma {:induction false} DotReadsOnlyRow(a: seq<int>, a2: seq<int>, b: seq<int>, n: nat, i: nat, j: nat, k: nat)
    requires |a| == n * n && |a2| == n * n && |b| == n * n && i < n && j < n && k <= n
    requires SameRow(a, a2, n, i)
    ensures Dot(a, b, n, i, j, k) == Dot(a2, b, n, i, j, k)
    decreases k
  {
    if k > 0 {
      DotReadsOnlyRow(a, a2, b, n, i, j, k - 1);
    }
  }

  /** Row i of the product depends on row i of the left operand only, so a
      participant that holds just its own rows of a computes the same rows. */
  lemma ProductEntryReadsOnlyRow(a: seq<int>, a2: seq<int>, b: seq<int>, n: nat, i: nat, j: nat)
    requires |a| == n * n && |a2| == n * n && |b| == n * n && i < n && j < n
    requires SameRow(a, a2, n, i)
    ensures ProductEntry(a, b, n, i, j) == ProductEntry(a2, b, n, i, j)
  {
    DotReadsOnlyRow(a, a2, b, n, i, j, n);
  }

  /** Every element of row i holds i + 1: the fill of mode -1. */
  ghost predicate RowNumbered(s: seq<int>, n: nat)
    requires |s| == n * n
  {
    forall i, j :: 0 <= i < n && 0 <= j < n ==> Entry(s, n, i, j) == i + 1
  }

  /** With both operands row-numbered, the k-term partial dot product of row
      i is (i+1) * (1 + 2 + ... + k). */
  lemma {:induction false} DotOfRowNumbered(a: seq<int>, b: seq<int>, n: nat, i: nat, j: nat, k: nat)
    requires |a| == n * n && |b| == n * n && i < n && j < n && k <= n
    requires RowNumbered(a, n) && RowNumbered(b, n)
    ensures 2 * Dot(a, b, n, i, j, k) == (i + 1) * k * (k + 1)
    decreases k
  {
    if k > 0 {
      DotOfRowNumbered(a, b, n, i, j, k - 1);
      assert Entry(a, n, i, k - 1) == i + 1;
      assert Entry(b, n, k - 1, j) == k;
      assert 2 * Dot(a, b, n, i, j, k) == 2 * Dot(a, b, n, i, j, k - 1) + 2 * ((i + 1) * k);
      TriangularStep(i + 1, k);
    }
  }

  /** One step of the triangular sum, scaled by x: adding 2*x*k to
      x*(k-1)*k gives x*k*(k+1). */
  lemma TriangularStep(x: int, k: int)
    ensures x * (k - 1) * k + 2 * (x * k) == x * k * (k + 1)
  {
  }

  /** With both operands row-numbered, every entry of row i of the product
      is (i+1) * n * (n+1) / 2. */
  lemma ProductOfRowNumbered(a: seq<int>, b: seq<int>, n: nat, i: nat, j: nat)
    requires |a| == n * n && |b| == n * n && i < n && j < n
    requires RowNumbered(a, n) && RowNumbered(b, n)
    ensures ProductEntry(a, b, n, i, j) == (i + 1) * n * (n + 1) / 2
  {
    DotOfRowNumbered(a, b, n, i, j, n);
  }

  /** The order-4 instance: rows of 10, 20, 30 and 40. */
  lemma ProductOfRowNumberedOrderFour(a: seq<int>, b: seq<int>)
    requires |a| == 16 && |b| == 16
    requires RowNumbered(a, 4) && RowNumbered(b, 4)
    ensures forall i, j :: 0 <= i < 4 && 0 <= j < 4 ==> ProductEntry(a, b, 4, i, j) == 10 * (i + 1)
  {
    forall i, j | 0 <= i < 4 && 0 <= j < 4
      ensures ProductEntry(a, b, 4, i, j) == 10 * (i + 1)
    {
      ProductOfRowNumbered(a, b, 4, i, j);
    }
  }
}

=== FILE: programs.dfy ===
/** The computations the two programs carry out, from allocation to the
    finished product, with timing, printing and the result file left out.
    The distributed run is written out participant by participant: what
    each participant allocates, what the collectives deliver to it, and
    what its kernel computes, in the order of the program. */
module Programs {
  import opened Matrix
  import opened Stripes
  import opened Transport
  import opened Kernel
  import opened Alloc
  import opened Assembly

  /** The successive rand() results; the fills of modes 0, -1 and -2 draw none. */
  function NoRand(size: nat): (r: seq<int>)
    ensures |r| == size * size
  {
    seq(size * size, _ => 0)
  }

  /** The shared-memory program: A and B filled with mode -1, C left
      unwritten, then the kernel over every row. Row i of the result is
      constant and equal to (i+1) * size * (size+1) / 2. */
  method SharedMemoryMain(size: nat) returns (C: array<int>)
    ensures C.Length == size * size
    ensures forall i, j :: 0 <= i < size && 0 <= j < size ==>
              Entry(C[..], size, i, j) == (i + 1) * size * (size + 1) / 2
  {
    var A := AllocateRealMatrix(size, -1, NoRand(size));
    var B := AllocateRealMatrix(size, -1, NoRand(size));
    C := AllocateRealMatrix(size, -2, NoRand(size));
    Multiply(A, B, C, size);
    forall i, j | 0 <= i < size && 0 <= j < size
      ensures Entry(C[..], size, i, j) == (i + 1) * size * (size + 1) / 2
    {
      ProductOfRowNumbered(A[..], B[..], size, i, j);
    }
  }

  /** A fresh array holding the elements of s. */
  method ToArray(s: seq<int>) returns (a: array<int>)
    ensures fresh(a) && a[..] == s
  {
    a := new int[|s|](k requires 0 <= k < |s| => s[k]);
  }

  /** The allocations of the distributed program: every participant
      allocates A, B and C; only the root fills A and B (mode -1), every
      other buffer is left as allocated (mode -2). */
  method AllocateAll(size: nat, numtasks: nat) returns (aBufs: seq<seq<int>>, bBufs: seq<seq<int>>, cBufs: seq<seq<int>>)
    requires numtasks >= 1
    ensures WellSized(aBufs, size, numtasks) && WellSized(bBufs, size, numtasks)
    ensures WellSized(cBufs, size, numtasks)
    ensures RowNumbered(aBufs[0], size) && RowNumbered(bBufs[0], size)
  {
    aBufs, bBufs, cBufs := [], [], [];
    var taskid := 0;
    while taskid < numtasks
      invariant taskid <= numtasks
      invariant |aBufs| == taskid && |bBufs| == taskid && |cBufs| == taskid
      invariant forall q :: 0 <= q < taskid ==>
                  |aBufs[q]| == size * size && |bBufs[q]| == size * size && |cBufs[q]| == size * size
      invariant taskid > 0 ==> RowNumbered(aBufs[0], size) && RowNumbered(bBufs[0], size)
    {
      var mode := if taskid == 0 then -1 else -2;
      var A := AllocateRealMatrix(size, mode, NoRand(size));
      var B := AllocateRealMatrix(size, mode, NoRand(size));
      var C := AllocateRealMatrix(size, -2, NoRand(size));
      aBufs, bBufs, cBufs := aBufs + [A[..]], bBufs + [B[..]], cBufs + [C[..]];
      taskid := taskid + 1;
    }
  }

  /** Every participant runs the kernel over its own stripe, on the copies
      of A and B the collectives delivered to it and on its own C; the rows
      of its C outside the stripe stay as they were. */
  method ComputeStripes(aLocal: seq<seq<int>>, bLocal: seq<seq<int>>, cBufs: seq<seq<int>>,
                        size: nat, numtasks: nat) returns (computed: seq<seq<int>>)
    requires numtasks >= 1
    requires WellSized(aLocal, size, numtasks) && WellSized(bLocal, size, numtasks)
    requires WellSized(cBufs, size, numtasks)
    ensures WellSized(computed, size, numtasks)
    ensures forall q :: 0 <= q < numtasks ==>
              (StripeBounds(size, numtasks, q);
               RowsComputed(computed[q], aLocal[q], bLocal[q], size, From(size, numtasks, q), To(size, numtasks, q)))
    ensures forall q, r, c :: (0 <= q < numtasks && 0 <= r < size && 0 <= c < size &&
              !(From(size, numtasks, q) <= r < To(size, numtasks, q))) ==>
              Entry(computed[q], size, r, c) == Entry(cBufs[q], size, r, c)
  {
    computed := [];
    var taskid := 0;
    while taskid < numtasks
      invariant taskid <= numtasks
      invariant |computed| == taskid
      invariant forall q :: 0 <= q < taskid ==> |computed[q]| == size * size
      invariant forall q :: 0 <= q < taskid ==>
                  (StripeBounds(size, numtasks, q);
                   RowsComputed(computed[q], aLocal[q], bLocal[q], size, From(size, numtasks, q), To(size, numtasks, q)))
      invariant forall q, r, c :: (0 <= q < taskid && 0 <= r < size && 0 <= c < size &&
                  !(From(size, numtasks, q) <= r < To(size, numtasks, q))) ==>
                  Entry(computed[q], size, r, c) == Entry(cBufs[q], size, r, c)
    {
      StripeBounds(size, numtasks, taskid);
      var A := ToArray(aLocal[taskid]);
      var B := ToArray(bLocal[taskid]);
      var C := ToArray(cBufs[taskid]);
      MultiplyRows(A, B, C, size, From(size, numtasks, taskid), To(size, numtasks, taskid));
      computed := computed + [C[..]];
      taskid := taskid + 1;
    }
  }

  /** The distributed program with `numtasks` participants: the
      allocations, the broadcast of B, the scatter of A along the transfer
      plan, the kernel on every participant's stripe, and the gather of the
      stripes of C into the root's C, which is returned. */
  method ParallelMain(size: nat, numtasks: nat) returns (C: seq<int>)
    requires numtasks >= 1
    ensures |C| == size * size
    ensures forall i, j :: 0 <= i < size && 0 <= j < size ==>
              Entry(C, size, i, j) == (i + 1) * size * (size + 1) / 2
  {
    var aBufs, bBufs, cBufs := AllocateAll(size, numtasks);
    var bLocal := Bcast(bBufs, numtasks);
    var aLocal := Scatterv(aBufs, size, numtasks);
    var computed := ComputeStripes(aLocal, bLocal, cBufs, size, numtasks);
    assert StripesComputed(computed, aBufs, bBufs, size, numtasks);
    C := Gatherv(computed, size, numtasks);
    ParallelProductOfRowNumbered(aBufs, bBufs, computed, size, numtasks);
  }
}

=== FILE: stripes.dfy ===
/** The row-striped partition of an n-by-n product over `numtasks`
    participants, and the transfer plan (element counts and offsets) that
    drives the scatter of the left operand and the gather of the result.
    Every participant gets `size / numtasks` rows; the last one also takes
    the whole remainder `size % numtasks`. */
module Stripes {
  import opened Arith

  /** The largest value of a C `int` on the platforms the program targets. */
  const IntMax: int := 0x7fff_ffff

  /** Base stripe height: the rows each participant gets before the remainder. */
  function StripeHeight(size: nat, numtasks: nat): (h: nat)
    requires numtasks >= 1
    ensures h * numtasks <= size < (h + 1) * numtasks
  {
    size / numtasks
  }

  /** The rows left over by the base height, all given to the last participant. */
  function ExtraStripeHeight(size: nat, numtasks: nat): (e: nat)
    requires numtasks >= 1
    ensures e < numtasks && StripeHeight(size, numtasks) * numtasks + e == size
  {
    size % numtasks
  }

  /** First row of the stripe of participant `taskid`. */
  function From(size: nat, numtasks: nat, taskid: nat): (r: nat)
    requires taskid < numtasks
    ensures r <= size
  {
    MulMonotone(taskid, numtasks, StripeHeight(size, numtasks));
    taskid * StripeHeight(size, numtasks)
  }

  /** One past the last row of the stripe of participant `taskid`. */
  function To(size: nat, numtasks: nat, taskid: nat): (r: nat)
    requires taskid < numtasks
    ensures From(size, numtasks, taskid) <= r <= size
    ensures taskid == numtasks - 1 ==> r == size
    ensures taskid + 1 < numtasks ==> r == From(size, numtasks, taskid + 1)
  {
    MulMonotone(taskid + 1, numtasks, StripeHeight(size, numtasks));
    (taskid + 1) * StripeHeight(size, numtasks)
      + if taskid == numtasks - 1 then ExtraStripeHeight(size, numtasks) else 0
  }

  /** Row i belongs to the stripe of participant `taskid`. */
  predicate InStripe(size: nat, numtasks: nat, taskid: nat, i: nat)
    requires taskid < numtasks
  {
    From(size, numtasks, taskid) <= i < To(size, numtasks, taskid)
  }

  /** Elements in a stripe of base height. */
  function StripeSize(size: nat, numtasks: nat): (r: nat)
    requires numtasks >= 1
    ensures r * numtasks <= size * size
  {
    var h := StripeHeight(size, numtasks);
    MulMonotone(h * numtasks, size, size);
    assert h * size * numtasks == h * numtasks * size;
    h * size
  }

  /** Elements in the last stripe: base height plus the remainder rows. */
  function LastStripeSize(size: nat, numtasks: nat): (r: nat)
    requires numtasks >= 1
    ensures (numtasks - 1) * StripeSize(size, numtasks) + r == size * size
  {
    var h := StripeHeight(size, numtasks);
    var e := ExtraStripeHeight(size, numtasks);
    assert (numtasks - 1) * (h * size) + h * size == (h * numtasks) * size;
    assert (h * numtasks) * size + e * size == (h * numtasks + e) * size;
    e * size + StripeSize(size, numtasks)
  }

  /** The offset (`displs[taskid]`) of a participant's block in the full buffer. */
  function Displ(size: nat, numtasks: nat, taskid: nat): (r: nat)
    requires taskid < numtasks
    ensures r == From(size, numtasks, taskid) * size
  {
    var h := StripeHeight(size, numtasks);
    assert taskid * (h * size) == (taskid * h) * size;
    taskid * StripeSize(size, numtasks)
  }

  /** The element count (`scounts[taskid]`) of a participant's block. The
      participant itself sends or receives the same count. */
  function Count(size: nat, numtasks: nat, taskid: nat): (r: nat)
    requires taskid < numtasks
    ensures r == (To(size, numtasks, taskid) - From(size, numtasks, taskid)) * size
  {
    var h := StripeHeight(size, numtasks);
    var e := ExtraStripeHeight(size, numtasks);
    assert (taskid + 1) * h == taskid * h + h;
    assert (h + e) * size == e * size + h * size;
    if taskid < numtasks - 1 then StripeSize(size, numtasks) else LastStripeSize(size, numtasks)
  }

  /** Every stripe lies in [0, size); all but the last have the base height,
      and the last one ends at row size. */
  lemma StripeBounds(size: nat, numtasks: nat, taskid: nat)
    requires taskid < numtasks
    ensures 0 <= From(size, numtasks, taskid) <= To(size, numtasks, taskid) <= size
    ensures taskid < numtasks - 1 ==>
              To(size, numtasks, taskid) - From(size, numtasks, taskid) == size / numtasks
    ensures taskid == numtasks - 1 ==> To(size, numtasks, taskid) == size
  {
  }

  /** Neighbouring stripes meet: each stripe ends where the next one begins. */
  lemma StripesContiguous(size: nat, numtasks: nat, taskid: nat)
    requires taskid + 1 < numtasks
    ensures To(size, numtasks, taskid) == From(size, numtasks, taskid + 1)
  {
  }

  /** A stripe ends no later than any later stripe begins. */
  lemma StripesOrdered(size: nat, numtasks: nat, p: nat, q: nat)
    requires p < q < numtasks
    ensures To(size, numtasks, p) <= From(size, numtasks, q)
  {
  }

  /** No row belongs to two stripes. */
  lemma StripesDisjoint(size: nat, numtasks: nat, p: nat, q: nat, i: nat)
    requires p < numtasks && q < numtasks
    requires InStripe(size, numtasks, p, i) && InStripe(size, numtasks, q, i)
    ensures p == q
  {
    if p < q {
      StripesOrdered(size, numtasks, p, q);
    } else if q < p {
      StripesOrdered(size, numtasks, q, p);
    }
  }

  /** A row that lies before the end of stripe `taskid` lies in one of the
      stripes 0..taskid. */
  lemma {:induction false} CoveredUpTo(size: nat, numtasks: nat, taskid: nat, i: nat)
    requires taskid < numtasks
    requires i < To(size, numtasks, taskid)
    ensures exists q: nat :: q <= taskid && InStripe(size, numtasks, q, i)
    decreases taskid
  {
    if i >= From(size, numtasks, taskid) {
      assert InStripe(size, numtasks, taskid, i);
    } else {
      StripesContiguous(size, numtasks, taskid - 1);
      CoveredUpTo(size, numtasks, taskid - 1, i);
    }
  }

  /** The stripes cover [0, size): every row belongs to exactly one of them. */
  lemma StripesCover(size: nat, numtasks: nat, i: nat)
    requires numtasks >= 1 && i < size
    ensures exists q: nat :: q < numtasks && InStripe(size, numtasks, q, i)
    ensures forall p: nat, q: nat ::
              (p < numtasks && q < numtasks &&
               InStripe(size, numtasks, p, i) && InStripe(size, numtasks, q, i)) ==> p == q
  {
    StripeBounds(size, numtasks, numtasks - 1);
    CoveredUpTo(size, numtasks, numtasks - 1, i);
    forall p: nat, q: nat | p < numtasks && q < numtasks &&
        InStripe(size, numtasks, p, i) && InStripe(size, numtasks, q, i)
      ensures p == q
    {
      StripesDisjoint(size, numtasks, p, q, i);
    }
  }

  /** With more participants than rows, every participant but the last has
      an empty stripe and the last one owns every row. */
  lemma MoreTasksThanRows(size: nat, numtasks: nat, taskid: nat)
    requires size < numtasks && taskid < numtasks
    ensures taskid < numtasks - 1 ==> From(size, numtasks, taskid) == To(size, numtasks, taskid)
    ensures taskid == numtasks - 1 ==>
              From(size, numtasks, taskid) == 0 && To(size, numtasks, taskid) == size
  {
  }

  /** The transfer plan agrees with the stripes: a participant's block starts
      at its first row and holds its rows, and blocks follow each other. */
  lemma PlanMatchesStripes(size: nat, numtasks: nat, taskid: nat)
    requires taskid < numtasks
    ensures Displ(size, numtasks, taskid) == From(size, numtasks, taskid) * size
    ensures Count(size, numtasks, taskid)
              == (To(size, numtasks, taskid) - From(size, numtasks, taskid)) * size
    ensures taskid + 1 < numtasks ==>
              Displ(size, numtasks, taskid) + Count(size, numtasks, taskid)
                == Displ(size, numtasks, taskid + 1)
  {
  }

  /** A participant's block lies inside the size*size buffer and ends at
      the offset of the row after its stripe. */
  lemma BlockInBuffer(size: nat, numtasks: nat, taskid: nat)
    requires taskid < numtasks
    ensures Displ(size, numtasks, taskid) + Count(size, numtasks, taskid)
              == To(size, numtasks, taskid) * size <= size * size
  {
    PlanMatchesStripes(size, numtasks, taskid);
    StripeBounds(size, numtasks, taskid);
    MulMonotone(To(size, numtasks, taskid), size, size);
  }

  /** The element counts of participants 0..taskid-1 add up to the offset of
      participant `taskid`. */
  function CountsBefore(size: nat, numtasks: nat, taskid: nat): nat
    requires taskid <= numtasks
  {
    if taskid == 0 then 0 else CountsBefore(size, numtasks, taskid - 1) + Count(size, numtasks, taskid - 1)
  }

  lemma {:induction false} CountsBeforeIsOffset(size: nat, numtasks: nat, taskid: nat)
    requires taskid < numtasks
    ensures CountsBefore(size, numtasks, taskid) == Displ(size, numtasks, taskid)
    decreases taskid
  {
    if taskid > 0 {
      CountsBeforeIsOffset(size, numtasks, taskid - 1);
      PlanMatchesStripes(size, numtasks, taskid - 1);
    }
  }

  /** The blocks of the plan add up to the whole size*size buffer. */
  lemma CountsSumToWhole(size: nat, numtasks: nat)
    requires numtasks >= 1
    ensures CountsBefore(size, numtasks, numtasks) == size * size
  {
    var last := numtasks - 1;
    CountsBeforeIsOffset(size, numtasks, last);
    PlanMatchesStripes(size, numtasks, last);
    StripeBounds(size, numtasks, last);
    assert From(size, numtasks, last) * size + (size - From(size, numtasks, last)) * size == size * size;
  }

  /** Fills the arrays `displs` and `scounts` of the transfer plan: base
      blocks for participants 0..numtasks-2, then the last, larger block.
      Every value fits in an `int` when the whole buffer does. */
  method BuildPlan(size: nat, numtasks: nat) returns (displs: array<int>, scounts: array<int>)
    requires numtasks >= 1
    requires size * size <= IntMax
    ensures fresh(displs) && fresh(scounts)
    ensures displs.Length == numtasks && scounts.Length == numtasks
    ensures forall r :: 0 <= r < numtasks ==>
              displs[r] == Displ(size, numtasks, r) && scounts[r] == Count(size, numtasks, r)
    ensures forall r :: 0 <= r < numtasks ==> 0 <= displs[r] && displs[r] + scounts[r] <= size * size <= IntMax
  {
    var stripeSize := StripeHeight(size, numtasks) * size;
    var lastStripeSize := ExtraStripeHeight(size, numtasks) * size + stripeSize;
    displs := new int[numtasks];
    scounts := new int[numtasks];
    var i := 0;
    while i < numtasks - 1
      invariant 0 <= i <= numtasks - 1
      invariant forall r :: 0 <= r < i ==>
                  displs[r] == Displ(size, numtasks, r) && scounts[r] == Count(size, numtasks, r)
    {
      displs[i] := i * stripeSize;
      scounts[i] := stripeSize;
      i := i + 1;
    }
    displs[i] := i * stripeSize;
    scounts[i] := lastStripeSize;
    forall r | 0 <= r < numtasks
      ensures 0 <= displs[r] && displs[r] + scounts[r] <= size * size
    {
      PlanMatchesStripes(size, numtasks, r);
      StripeBounds(size, numtasks, r);
      MulMonotone(To(size, numtasks, r), size, size);
      assert displs[r] + scounts[r] == To(size, numtasks, r) * size;
    }
  }
}

=== FILE: transport.dfy ===
/** The data effect of the three collective operations of the distributed
    program. Every participant holds a full size*size buffer per matrix, as
    the program allocates them; `bufs[q]` is participant q's buffer and
    participant 0 is the root. Only where the data ends up is modelled: the
    blocking and the messages themselves are not. */
module Transport {
  import opened Arith
  import opened Stripes
  import Matrix

  /** One buffer of size*size elements per participant. */
  predicate WellSized(bufs: seq<seq<int>>, size: nat, numtasks: nat)
  {
    |bufs| == numtasks && forall q :: 0 <= q < numtasks ==> |bufs[q]| == size * size
  }

  /** The buffer `buf` with `block` copied over it from offset `at` on. */
  function Place(buf: seq<int>, block: seq<int>, at: nat): (r: seq<int>)
    requires at + |block| <= |buf|
    ensures |r| == |buf|
    ensures forall idx :: 0 <= idx < |buf| ==>
              r[idx] == if at <= idx < at + |block| then block[idx - at] else buf[idx]
  {
    buf[..at] + block + buf[at + |block|..]
  }

  /** The root's buffer is delivered whole to every participant. */
  function Bcast(bufs: seq<seq<int>>, numtasks: nat): (r: seq<seq<int>>)
    requires numtasks >= 1 && |bufs| == numtasks
    ensures |r| == numtasks
    ensures forall q :: 0 <= q < numtasks ==> r[q] == bufs[0]
  {
    seq(numtasks, q => bufs[0])
  }

  /** Offset idx lies in the block of participant q: the offsets of the
      rows of q's stripe, the range both the scatter and the gather move. */
  predicate InBlock(size: nat, numtasks: nat, q: nat, idx: nat)
    requires q < numtasks
  {
    From(size, numtasks, q) * size <= idx < To(size, numtasks, q) * size
  }

  /** What participant q holds after the scatter: the root keeps its buffer
      (it receives in place); any other participant receives the root's
      block q, `Count` elements from offset `Displ`, at offset from*size of
      its own buffer. */
  function Received(bufs: seq<seq<int>>, size: nat, numtasks: nat, q: nat): (r: seq<int>)
    requires q < numtasks && WellSized(bufs, size, numtasks)
    ensures |r| == size * size
    ensures forall idx :: 0 <= idx < size * size ==>
              r[idx] == if InBlock(size, numtasks, q, idx)
                        then bufs[0][idx] else bufs[q][idx]
  {
    BlockInBuffer(size, numtasks, q);
    PlanMatchesStripes(size, numtasks, q);
    if q == 0 then bufs[0]
    else
      var at := Displ(size, numtasks, q);
      Place(bufs[q], bufs[0][at .. at + Count(size, numtasks, q)], From(size, numtasks, q) * size)
  }

  /** The scatter of the root's buffer along the transfer plan. */
  function Scatterv(bufs: seq<seq<int>>, size: nat, numtasks: nat): (r: seq<seq<int>>)
    requires numtasks >= 1 && WellSized(bufs, size, numtasks)
    ensures WellSized(r, size, numtasks)
    ensures r[0] == bufs[0]
  {
    seq(numtasks, q requires 0 <= q < numtasks => Received(bufs, size, numtasks, q))
  }

  /** After the scatter, participant q holds the root's elements across its
      own stripe and keeps its own elements everywhere else. */
  lemma ScatterAt(bufs: seq<seq<int>>, size: nat, numtasks: nat, q: nat, idx: nat)
    requires numtasks >= 1 && WellSized(bufs, size, numtasks)
    requires q < numtasks && idx < size * size
    ensures Scatterv(bufs, size, numtasks)[q][idx]
              == if InBlock(size, numtasks, q, idx)
                 then bufs[0][idx] else bufs[q][idx]
  {
    assert Scatterv(bufs, size, numtasks)[q] == Received(bufs, size, numtasks, q);
  }

  /** The root's buffer once the blocks of participants 1..m-1 have arrived:
      participant q sends `Count` elements from offset from*size of its own
      buffer, and the root stores them at offset `Displ`. The root's own
      block is already in place. The stripes of the participants that have
      not sent yet still hold what the root's buffer held. */
  function GatherUpTo(bufs: seq<seq<int>>, size: nat, numtasks: nat, m: nat): (r: seq<int>)
    requires 1 <= m <= numtasks && WellSized(bufs, size, numtasks)
    ensures |r| == size * size
    ensures forall idx :: To(size, numtasks, m - 1) * size <= idx < size * size ==> r[idx] == bufs[0][idx]
    decreases m
  {
    if m == 1 then bufs[0]
    else
      var q := m - 1;
      BlockInBuffer(size, numtasks, q);
      PlanMatchesStripes(size, numtasks, q);
      MulMonotone(To(size, numtasks, q - 1), To(size, numtasks, q), size);
      var from := From(size, numtasks, q) * size;
      Place(GatherUpTo(bufs, size, numtasks, q), bufs[q][from .. from + Count(size, numtasks, q)],
            Displ(size, numtasks, q))
  }

  /** Once participants 0..m-1 have sent, every element of their stripes in
      the root's buffer comes from the participant that owns the stripe. */
  lemma {:induction false} GatherUpToAt(bufs: seq<seq<int>>, size: nat, numtasks: nat, m: nat, q: nat, idx: nat)
    requires 1 <= m <= numtasks && WellSized(bufs, size, numtasks)
    requires q < m
    requires InBlock(size, numtasks, q, idx)
    ensures idx < size * size
    ensures GatherUpTo(bufs, size, numtasks, m)[idx] == bufs[q][idx]
    decreases m
  {
    BlockInBuffer(size, numtasks, q);
    PlanMatchesStripes(size, numtasks, q);
    if m > 1 {
      var last := m - 1;
      BlockInBuffer(size, numtasks, last);
      PlanMatchesStripes(size, numtasks, last);
      if q < last {
        StripesOrdered(size, numtasks, q, last);
        MulMonotone(To(size, numtasks, q), From(size, numtasks, last), size);
        GatherUpToAt(bufs, size, numtasks, last, q, idx);
        LaterBlockKeepsEarlier(bufs, size, numtasks, m, idx);
      }
    }
  }

  /** The block of participant m-1 arrives at offset `Displ`: every element
      below that offset stays as the earlier arrivals left it. */
  lemma LaterBlockKeepsEarlier(bufs: seq<seq<int>>, size: nat, numtasks: nat, m: nat, idx: nat)
    requires 2 <= m <= numtasks && WellSized(bufs, size, numtasks)
    requires idx < Displ(size, numtasks, m - 1) && idx < size * size
    ensures GatherUpTo(bufs, size, numtasks, m)[idx] == GatherUpTo(bufs, size, numtasks, m - 1)[idx]
  {
    BlockInBuffer(size, numtasks, m - 1);
  }

  /** The gather of every participant's stripe into the root's buffer: each
      element of participant q's stripe ends up as the one q held. */
  function Gatherv(bufs: seq<seq<int>>, size: nat, numtasks: nat): (r: seq<int>)
    requires numtasks >= 1 && WellSized(bufs, size, numtasks)
    ensures |r| == size * size
    ensures forall q: nat, idx: nat :: q < numtasks && InBlock(size, numtasks, q, idx) ==>
              idx < size * size && r[idx] == bufs[q][idx]
  {
    GatheredFromOwners(bufs, size, numtasks);
    GatherUpTo(bufs, size, numtasks, numtasks)
  }

  /** Every block of the gathered buffer comes from its owner, for all
      blocks at once. */
  lemma GatheredFromOwners(bufs: seq<seq<int>>, size: nat, numtasks: nat)
    requires numtasks >= 1 && WellSized(bufs, size, numtasks)
    ensures forall q: nat, idx: nat :: q < numtasks && InBlock(size, numtasks, q, idx) ==>
              idx < size * size && GatherUpTo(bufs, size, numtasks, numtasks)[idx] == bufs[q][idx]
  {
    forall q: nat, idx: nat | q < numtasks && InBlock(size, numtasks, q, idx)
      ensures idx < size * size && GatherUpTo(bufs, size, numtasks, numtasks)[idx] == bufs[q][idx]
    {
      GatherUpToAt(bufs, size, numtasks, numtasks, q, idx);
    }
  }

  /** After the gather, every element of participant q's stripe in the
      root's buffer is the one participant q held. */
  lemma GatherAt(bufs: seq<seq<int>>, size: nat, numtasks: nat, q: nat, idx: nat)
    requires numtasks >= 1 && WellSized(bufs, size, numtasks)
    requires q < numtasks && InBlock(size, numtasks, q, idx)
    ensures idx < size * size && Gatherv(bufs, size, numtasks)[idx] == bufs[q][idx]
  {
    GatherUpToAt(bufs, size, numtasks, numtasks, q, idx);
  }

  /** Every element of the buffer lies in the block of some participant. */
  lemma ElementInSomeBlock(size: nat, numtasks: nat, idx: nat)
    requires numtasks >= 1 && idx < size * size
    ensures exists q: nat :: q < numtasks && InBlock(size, numtasks, q, idx)
  {
    Matrix.ElementAt(size, idx);
    var i := idx / size;
    StripesCover(size, numtasks, i);
    var q: nat :| q < numtasks && InStripe(size, numtasks, q, i);
    Matrix.OffsetInRows(size, From(size, numtasks, q), To(size, numtasks, q), i, idx % size);
    assert InBlock(size, numtasks, q, idx);
  }

  /** Scattering a buffer and gathering it back with nothing changed in
      between gives the root exactly the buffer it started with. */
  lemma ScatterGatherRoundTrip(bufs: seq<seq<int>>, size: nat, numtasks: nat)
    requires numtasks >= 1 && WellSized(bufs, size, numtasks)
    ensures Gatherv(Scatterv(bufs, size, numtasks), size, numtasks) == bufs[0]
  {
    var scattered := Scatterv(bufs, size, numtasks);
    var gathered := Gatherv(scattered, size, numtasks);
    forall idx | 0 <= idx < size * size
      ensures gathered[idx] == bufs[0][idx]
    {
      ElementInSomeBlock(size, numtasks, idx);
      var q: nat :| q < numtasks && InBlock(size, numtasks, q, idx);
      GatherAt(scattered, size, numtasks, q, idx);
      ScatterAt(bufs, size, numtasks, q, idx);
    }
  }
}
